=== FILE: README.md ===
# IOGraph path drawer, modelled in Dafny

IOGraph traces the mouse pointer over a rectangle of the screen. The `Drawer`
class renders that trace. It draws a thin stroke wherever the pointer moves and a
halo marker wherever the pointer lingered. It draws into two images: the
full-resolution image and a preview that is drawn at a smaller scale.

This project models the per-sample core of `Drawer` as pure functions over
immutable values:

- `Geometry`: pointer samples and the tracked rectangle. A sample is made local
  by subtracting the rectangle's origin. The squared distance measures the dwell
  zone.
- `Drawer`: the stroke and dwell state machine. `PrepareForUpdate` starts a
  session. `Step` is one call of `update`: it returns the next motion state
  (previous, current and anchor point, and the dwell radius) and the draws
  issued, as `Line` and `Marker` events sent to the preview canvas first and then
  to the full canvas.
- `Trace`: sessions of many ticks (`Run` folds `Step` over samples). Lemmas here
  cover dwell accumulation, the marker threshold counted in ticks, and the fact
  that a session's line draws are exactly the polyline through its samples.
- `Palette`: the colour step of `getColor`. It starts from the normalised
  direction value `n` in [0, 1) and blends between yellow, cyan and magenta.
  The arithmetic runs on exact reals, with the float-to-int casts and the
  truncating float remainder written out; single-precision rounding is not
  modelled (see "## Left out").
- `Images`: the buffer decision of `setupImages` (reuse or reallocate), the
  stroke widths, and the background chosen by `resetImages`.
- `Wrappers`: `Option` and `Result`.

Pointer positions are integers, because the host reports integer positions and
the rectangle has an integer origin. `Drawer` stores them in floats, which
represent integers exactly up to magnitude 2^24; the model assumes
coordinates in that range. The dwell radius is a Dafny `real`, so the
repeated float `+= .3` becomes exact steps of 3/10. The `> 20` threshold
is therefore read on the ideal value. The pointer sample, the two preference
flags (`USE_COLOR_SCHEME`, `IGNORE_MOUSE_STOPS`), the preview scale and the base
stroke weight `Data.STROKE_WEIGHT` are explicit inputs. `FPoint` and its `be`
copy become the immutable `Geometry.Point`, and copying is plain value
assignment. The marker clamp uses the full image's height. After `setupImages`
succeeds, that height is always the rectangle's height, so `Step` takes it from
the rectangle.

Two details of the code shape the model:

- Leaving the dwell zone re-anchors at the leaving sample itself
  (`Drawer.java:118-119`), not at the sample before it. `Drawer.Track` and
  `Trace.DwellThenLeave` re-anchor at the new sample.
- The preview buffer is allocated at the full rectangle size
  (`Drawer.java:57,60`); only its strokes and coordinates are scaled.
  `Images.SetupImages` gives both buffers the rectangle's size.

## Model

| member | source | states |
|---|---|---|
| Geometry.Local | src/com/iographica/tracker/Drawer.java:80-84 | the local sample plus the rectangle's origin is the global pointer position |
| Geometry.SqDist | src/com/iographica/tracker/Drawer.java:105-107 | the squared distance is non-negative and is zero exactly when the two points coincide |
| Drawer.PrepareForUpdate | src/com/iographica/tracker/Drawer.java:76-88 | a session starts with previous, current and anchor point all equal to the pointer minus the rectangle origin, with radius 0, and in the dwell invariant `Settled` |
| Drawer.Strokes | src/com/iographica/tracker/Drawer.java:96-100 | no line for a stationary sample; otherwise exactly two lines from the previous to the new sample, preview first, then full |
| Drawer.RadiusCap | src/com/iographica/tracker/Drawer.java:114 | the marker radius cap is non-negative and equals (height/4)^2, i.e. 16 times the cap is height squared |
| Drawer.Markers | src/com/iographica/tracker/Drawer.java:114-116 | a finished dwell gives two markers at the given point, preview first; each radius is at most both the dwell radius and (height/4)^2, and equals one of them (the minimum) |
| Drawer.Track | src/com/iographica/tracker/Drawer.java:105-120 | with dwell tracking, a sample at squared distance < 400 from the anchor keeps the anchor and grows the radius by exactly 0.3; at >= 400 (400 included) it re-anchors at the new sample with radius 0. A marker pair, preview first, is drawn iff a dwell of radius > 20 is left; it sits at the old previous point, with radius the smaller of the dwell radius and (height/4)^2. A non-negative radius re-establishes `Settled` |
| Drawer.Step | src/com/iographica/tracker/Drawer.java:90-121 | the new sample becomes previous and current point. The tick's draws start with the line pair for the move and contain no other line. With stops ignored, anchor and radius are unchanged; otherwise the dwell rules of `Track` apply. The radius stays non-negative, and a dwell-tracking tick re-establishes `Settled` |
| Drawer.StepMarkers | src/com/iographica/tracker/Drawer.java:103-120 | a tick draws markers iff stops are tracked and a dwell of radius > 20 is left; every marker sits at the old previous point, with radius the smaller of the dwell radius and (height/4)^2 |
| Drawer.StepMarkerPair | src/com/iographica/tracker/Drawer.java:96-116 | the markers are exactly one pair at the end of the tick, preview then full: a tick is its lines followed by two markers or by nothing |
| Drawer.ZoneBoundary | src/com/iographica/tracker/Drawer.java:105-108 | the dwell zone is strict: a sample at squared distance 392 from the anchor is inside, one at exactly 400 is outside |
| Drawer.ExitAtExactly400 | src/com/iographica/tracker/Drawer.java:105-120 | from a rest, a sample exactly 20 away (squared distance 400) re-anchors there with radius 0 |
| Drawer.StayAt392 | src/com/iographica/tracker/Drawer.java:105-112 | from a rest, a sample at squared distance 392 keeps the anchor and grows the radius by 0.3 |
| Drawer.LineIffMoved | src/com/iographica/tracker/Drawer.java:96-100 | a tick draws a line iff the new sample differs from the previous one |
| Drawer.HaloDiameter | src/com/iographica/tracker/Drawer.java:129 | the halo is non-negative for a non-negative radius and scale, and twice the radius on the full canvas |
| Drawer.HaloScales | src/com/iographica/tracker/Drawer.java:129 | a surface drawn at scale s gets the full canvas's halo diameter scaled by s |
| Drawer.MarkerInsideDwellZone | src/com/iographica/tracker/Drawer.java:105-117 | from a `Settled` state (for example when stops have been tracked on every tick since the session began), every marker lies strictly inside the dwell zone of the anchor it finishes |
| Trace.Run | src/com/iographica/tracker/Drawer.java:90-121 | over any number of ticks the radius stays non-negative, every marker radius is within (height/4)^2, and with stops ignored no marker is ever drawn and anchor and radius never change |
| Trace.DwellAccumulates | src/com/iographica/tracker/Drawer.java:105-112 | while every sample stays inside the anchor's zone, the anchor never moves, the radius grows by 0.3 per tick, and no marker is drawn |
| Trace.RunDrawsPolyline | src/com/iographica/tracker/Drawer.java:96-102 | the line draws of a session are exactly the polyline through its local samples (a segment per change of sample, preview then full), whatever the flags and dwells |
| Trace.RestAccumulates | src/com/iographica/tracker/Drawer.java:105-112 | resting n ticks at the starting sample draws nothing and leaves all three points there with radius 0.3 n |
| Trace.LeaveAfterRest | src/com/iographica/tracker/Drawer.java:113-120 | leaving the zone from a rest at a with radius r draws the jump's line pair, then a marker pair at a with radius min(r, (height/4)^2) exactly when r > 20, and resets to the new sample with radius 0 |
| Trace.RestThenLeave | src/com/iographica/tracker/Drawer.java:90-121 | a session that rests n ticks and then jumps out of the zone ends in the jump's state with exactly the segment pair followed by, when 0.3 n > 20, the marker pair |
| Trace.DwellThenLeave | src/com/iographica/tracker/Drawer.java:105-120 | n resting ticks followed by a jump out of the zone draw one line pair, and a marker pair at the resting point exactly when 0.3 n > 20, with radius min(0.3 n, (height/4)^2); the session ends anchored at the jump target with radius 0 |
| Trace.SixtyTicksDrawNoMarker | src/com/iographica/tracker/Drawer.java:109-113 | 60 resting ticks (radius 18) followed by a jump draw no marker |
| Trace.SeventyTicksDrawMarker | src/com/iographica/tracker/Drawer.java:109-113 | 70 resting ticks (radius 21) followed by a jump draw a marker |
| Trace.EightyTicksDrawMarker | src/com/iographica/tracker/Drawer.java:113-129 | on a 600-high canvas, 80 resting ticks at (100,100) and a jump to (300,300) draw that line pair and markers of radius 24 at (100,100), every drawn marker's halo being 48 across on the full canvas and 12 across on a preview at scale 0.25; the session re-anchors at (300,300) |
| Palette.Truncate | src/com/iographica/tracker/Drawer.java:150-155 | the float-to-int cast rounds toward zero: the result is within 1 of its argument, on the zero side |
| Palette.CycleRem | src/com/iographica/tracker/Drawer.java:151 | the float remainder by 3: the dividend minus the result is a whole multiple of 3, and the result lies in [0, 3) for a non-negative dividend and in (-3, 0] otherwise (so it keeps the dividend's sign) |
| Palette.LowerIndex | src/com/iographica/tracker/Drawer.java:150 | for n in [0,1) the first control index is a valid index k with k <= 3n < k+1 |
| Palette.UpperIndex | src/com/iographica/tracker/Drawer.java:151 | on exact reals, the second index computed as (int)((3n+1) % 3) is always (k+1) mod 3 |
| Palette.Fraction | src/com/iographica/tracker/Drawer.java:152 | the blend fraction lies in [0,1) and 3n = k + fraction |
| Palette.Lerp | src/com/iographica/tracker/Drawer.java:153-155 | each channel is the integer part of the exact interpolation a + (b - a) f, lies between the two control channels, is exactly the first at fraction 0 and exactly the second at fraction 1 |
| Palette.Blend | src/com/iographica/tracker/Drawer.java:153-156 | every channel of the blended colour is the integer part of the interpolation between the matching control channels; the colour is displayable, channel-wise between its two controls, and equals the first at fraction 0 |
| Palette.DirectionColor | src/com/iographica/tracker/Drawer.java:147-156 | for n in [0,1) every channel is the integer part of the interpolation from control floor(3n) toward control floor(3n)+1 mod 3 of yellow, cyan, magenta, by the fraction 3n - floor(3n); the colour is displayable, lies between those controls, is exactly the first control when 3n is whole, and has one channel at 255 |
| Palette.Foreground | src/com/iographica/tracker/Drawer.java:141-160 | monochrome mode gives black; colour mode gives the displayable direction blend: every channel the integer part of the interpolation from control floor(3n) toward the next by the fraction of 3n, with one channel at 255 |
| Palette.ControlPointsExact | src/com/iographica/tracker/Drawer.java:149-156 | at n = k/3 the colour is exactly the k-th control colour |
| Palette.LerpMonotone | src/com/iographica/tracker/Drawer.java:153-155 | for channels of the control colours (0 or 255), a larger fraction moves the truncated channel further from its start |
| Palette.BlendMonotone | src/com/iographica/tracker/Drawer.java:152-155 | within one third of the cycle, a larger n moves every channel further from the starting control, toward the next |
| Images.Allocate | src/com/iographica/tracker/Drawer.java:46 | in the model, allocation succeeds exactly for a positive width and height and yields a buffer of that size; size limits of the image constructor are not modelled |
| Images.Provide | src/com/iographica/tracker/Drawer.java:38-47 | an existing buffer is reused iff its width and height both match; otherwise a buffer of the requested size is allocated (a reallocation if one existed) |
| Images.BackgroundAlpha | src/com/iographica/tracker/Drawer.java:69-74 | the background is transparent iff colour-scheme mode is off; in colour-scheme mode it is translucent, neither clear nor opaque (the code uses alpha 210) |
| Images.ResetImages | src/com/iographica/tracker/Drawer.java:171-176 | both canvases get the mode's background; buffers, how they were obtained, and stroke widths are untouched |
| Images.SetupImages | src/com/iographica/tracker/Drawer.java:33-67 | setup fails for a non-positive rectangle and otherwise succeeds; both buffers then are the rectangle's size, each reused iff it already had that size; the full stroke width is the base weight and the preview stroke width is the base weight times the scale; both are cleared to the mode's background |
| Images.SetupAgainReuses | src/com/iographica/tracker/Drawer.java:38-61 | setting up again for the same rectangle reuses both buffers |
| Images.ResetIdempotent | src/com/iographica/tracker/Drawer.java:171-176 | resetting twice is the same as resetting once |

## Left out

- AWT rendering: `Graphics2D`, `BufferedImage` pixels, rendering hints, `BasicStroke` caps and miter, `clearRect`, `flush` and `System.gc`. Draws are events. A canvas is its size, how its buffer was obtained, its stroke width and its background alpha.
- Marker pixel geometry: the halo alpha `200*max(0, 1-2*sqrt(r)/20)`, the dot diameter `2*sqrt(r)*s`, the halo tint, and the float-to-int pixel coordinates of lines and ovals. These are floating-point numerics with square roots. Only the halo diameter `2*r*s` is given, as `Drawer.HaloDiameter`, on exact reals.
- Drawer.Step: events carry no colour. The colour depends on `Math.atan2` of the movement, which is float trigonometry; the colour step itself is modelled in `Palette`.
- Palette.DirectionColor: takes the normalised direction `n` in [0, 1) as an input. The `atan2` and the float normalisation `(1 + angle/pi + .25) % 1` that produce it are left out.
- Float rounding: the dwell radius is an exact real, not a float that drifts under repeated `+= .3`. The squared distance is exact, not a float. Coordinates beyond magnitude 2^24, which a float would round, are not modelled.
- `MouseInfo.getPointerInfo()` and `Data.prefs.getBoolean` are ambient input. They become parameters: the sample is given to each `Step`, and the flags are re-read on each `Step`. `Trace.Run` keeps the flags fixed for a whole session.
- `Data.STROKE_WEIGHT` is defined in a file that is not part of this model. It is the parameter `strokeWeight`.
- `getImage` and `getPreview` are plain accessors.
- Images.SetupImages: when a reallocation throws, `setupImages` leaves the image field null (`Drawer.java:41`). The model only reports the failure, because the exception is fatal to the drawer.
- Palette.LerpMonotone: is stated only for channel values 0 and 255, the only values the control colours use; for general channels the proof needs nonlinear real arithmetic.
- Images.Allocate: `new BufferedImage` also fails when width times height is too large for an int, or when memory runs out (`Drawer.java:43,46,57,60`). The model allocates every positive size, because memory is an ambient resource and the pixel-count limit belongs to the AWT library, not to this code.
- Images.SetupImages: inherits that gap from `Images.Allocate`: it succeeds for every positive rectangle, however large.
- Palette.UpperIndex: is proved on exact reals. In single precision `3n + 1` can round up to the next integer: at n = 11184810 * 2^-25, where `3n` is 1 - 2^-24, the sum rounds to 2.0 and the code heads for magenta instead of cyan; at n = 11184810 * 2^-24 it rounds to 3.0 and the code heads for yellow instead of magenta. The model always heads for the next control colour.
- Palette.DirectionColor: is computed on exact reals. The code's float fraction `(float)(3n) - k` is not the exact `3n - k`, so a channel can differ by 1 from the model, and at the two inputs named for `Palette.UpperIndex` the code blends toward the other neighbour.

=== FILE: drawer.dfy ===
/**
  The drawer's per-sample state machine. Each tick the drawer reads the pointer,
  strokes a line from the previous sample when the pointer moved, and tracks
  "dwells": periods during which the pointer stays inside a small zone around an
  anchor. When the pointer leaves the zone after a long enough dwell, a halo
  marker is drawn where the pointer lingered.

  Drawing is abstracted into emitted events. Every draw goes to the preview
  canvas first and then to the full canvas, in that order.
 */
module Drawer {
  import opened Geometry

  /** Dwell radius a finished dwell must exceed to earn a marker. */
  const RadiusThreshold: real := 20.0

  /** Squared distance from the anchor at which the pointer leaves the dwell zone. */
  const DelayDistanceQuad: int := 400

  /** Amount the dwell radius grows on each tick spent inside the dwell zone. */
  const RadiusStep: real := 0.3

  /** Configuration flags, re-read on every tick. */
  datatype Prefs = Prefs(useColorScheme: bool, ignoreMouseStops: bool)

  /**
    Motion state: the previous and current local samples, the anchor where the
    current dwell began, and the dwell radius accumulated since then.
   */
  datatype Motion = Motion(prev: Point, curr: Point, anchor: Point, radius: real)

  /** The two canvases every draw is sent to. */
  datatype Surface = Preview | Full

  /**
    A draw issued by a tick. A line runs from the previous to the current sample.
    A marker is a halo and dot centred at `at`; `radius` is the clamped dwell
    radius, from which the halo's size on each canvas follows.
   */
  datatype Event =
    | Line(surface: Surface, from: Point, to: Point)
    | Marker(surface: Surface, at: Point, radius: real)

  /** The result of one tick: the next motion state and the draws it issued. */
  datatype Tick = Tick(motion: Motion, events: seq<Event>)

  /** The scale a surface is drawn at: the preview scale, or 1 for the full canvas. */
  function ScaleOf(surface: Surface, scale: real): real {
    match surface
    case Preview => scale
    case Full => 1.0
  }

  /** The halo's diameter for a marker radius on a surface drawn at scale `s`. */
  function HaloDiameter(radius: real, s: real): (d: real)
    ensures radius >= 0.0 && s >= 0.0 ==> d >= 0.0
    ensures s == 1.0 ==> d == 2.0 * radius
  {
    if radius >= 0.0 && s >= 0.0 then ProductNonNegative(2.0 * radius, s); 2.0 * radius * s
    else 2.0 * radius * s
  }

  /** A product of two non-negative reals is non-negative. */
  lemma ProductNonNegative(a: real, b: real)
    requires a >= 0.0 && b >= 0.0
    ensures a * b >= 0.0
  {
    if b <= 1.0 {
      assert a * b >= a * 0.0;
    } else {
      assert a * b >= a * 1.0;
    }
  }

  /** The halo on a surface drawn at scale `s` is the full canvas's halo scaled by `s`. */
  lemma HaloScales(radius: real, s: real)
    ensures HaloDiameter(radius, s) == s * HaloDiameter(radius, 1.0)
  {
  }

  /** The largest marker radius a canvas of the given height accepts: (height / 4) squared. */
  function RadiusCap(height: int): (cap: real)
    ensures cap >= 0.0
    ensures 16.0 * cap == (height * height) as real
  {
    var quarter := height as real * 0.25;
    quarter * quarter
  }

  function MinReal(a: real, b: real): real {
    if a <= b then a else b
  }

  /** Whether a local sample lies strictly inside the dwell zone around an anchor. */
  predicate InZone(p: Point, anchor: Point) {
    SqDist(p, anchor) < DelayDistanceQuad
  }

  /**
    The motion state a session starts from: all three points at the pointer's
    local position and no dwell accumulated.
   */
  function PrepareForUpdate(pointer: Point, rect: Rect): (m: Motion)
    ensures m.prev == m.curr && m.curr == m.anchor
    ensures m.curr.x == pointer.x - rect.x && m.curr.y == pointer.y - rect.y
    ensures m.radius == 0.0
    ensures Settled(m)
  {
    var p := Local(pointer, rect);
    Motion(p, p, p, 0.0)
  }

  /**
    The state invariant kept by every tick that tracks dwells: the radius is
    non-negative, the previous and current samples coincide between ticks,
    and the last sample lies inside the anchor's dwell zone.
   */
  predicate Settled(m: Motion) {
    && m.radius >= 0.0
    && m.prev == m.curr
    && InZone(m.prev, m.anchor)
  }

  /** The line draws for a sample: one per canvas when the pointer moved, none otherwise. */
  function Strokes(prev: Point, curr: Point): (lines: seq<Event>)
    ensures prev == curr <==> lines == []
    ensures prev != curr ==> |lines| == 2 && lines[0].surface == Preview && lines[1].surface == Full
    ensures forall e <- lines :: e.Line? && e.from == prev && e.to == curr
  {
    if prev == curr then []
    else [Line(Preview, prev, curr), Line(Full, prev, curr)]
  }

  /**
    The marker draws finishing a dwell of the given radius, placed at `at`: one
    per canvas, with the radius clamped to the canvas height's cap.
   */
  function Markers(at: Point, radius: real, height: int): (marks: seq<Event>)
    ensures |marks| == 2 && marks[0].surface == Preview && marks[1].surface == Full
    ensures forall e <- marks :: e.Marker? && e.at == at
    ensures forall e <- marks :: e.Marker? ==>
      && e.radius <= radius
      && e.radius <= RadiusCap(height)
      && (e.radius == radius || e.radius == RadiusCap(height))
  {
    var r := MinReal(radius, RadiusCap(height));
    [Marker(Preview, at, r), Marker(Full, at, r)]
  }

  /** Whether some event of a sequence is a line draw. */
  predicate HasLine(events: seq<Event>) {
    exists e <- events :: e.Line?
  }

  /** The line draws of an event sequence, in order. */
  function LinesOf(events: seq<Event>): (lines: seq<Event>)
    ensures forall e <- lines :: e.Line? && e in events
    ensures forall e <- events :: e.Line? ==> e in lines
  {
    if events == [] then []
    else (if events[0].Line? then [events[0]] else []) + LinesOf(events[1..])
  }

  /** Filtering lines out of a concatenation filters each part. */
  lemma {:induction false} LinesOfConcat(a: seq<Event>, b: seq<Event>)
    ensures LinesOf(a + b) == LinesOf(a) + LinesOf(b)
  {
    if a == [] {
      assert a + b == b;
    } else {
      assert (a + b)[1..] == a[1..] + b;
      LinesOfConcat(a[1..], b);
    }
  }

  /** A sequence of line draws is its own line filter. */
  lemma {:induction false} LinesOfOnlyLines(events: seq<Event>)
    requires forall e <- events :: e.Line?
    ensures LinesOf(events) == events
  {
    if events != [] {
      LinesOfOnlyLines(events[1..]);
    }
  }

  /** A sequence with no line draw filters to nothing. */
  lemma {:induction false} LinesOfNoLines(events: seq<Event>)
    requires forall e <- events :: !e.Line?
    ensures LinesOf(events) == []
  {
    if events != [] {
      LinesOfNoLines(events[1..]);
    }
  }

  /** Whether some event of a sequence is a marker draw. */
  predicate HasMarker(events: seq<Event>) {
    exists e <- events :: e.Marker?
  }

  /**
    The dwell bookkeeping of a tick that tracks stops, for the new local
    sample `c`: inside the anchor's zone the dwell grows; on leaving it the
    dwell is finished, with a marker pair when it lasted long enough, and a
    fresh dwell starts at `c`.
   */
  function Track(m: Motion, c: Point, height: int): (t: Tick)
    ensures t.motion.prev == c && t.motion.curr == c
    ensures InZone(c, m.anchor) ==> t.motion.anchor == m.anchor && t.motion.radius == m.radius + RadiusStep
    ensures !InZone(c, m.anchor) ==> t.motion.anchor == c && t.motion.radius == 0.0
    ensures t.events != [] <==> !InZone(c, m.anchor) && m.radius > RadiusThreshold
    ensures t.events != [] ==> |t.events| == 2 && t.events[0].surface == Preview && t.events[1].surface == Full
    ensures forall e <- t.events ::
      && e.Marker?
      && e.at == m.prev
      && e.radius <= RadiusCap(height)
      && e.radius <= m.radius
      && (e.radius == m.radius || e.radius == RadiusCap(height))
    ensures m.radius >= 0.0 ==> Settled(t.motion)
  {
    if InZone(c, m.anchor) then
      Tick(Motion(c, c, m.anchor, m.radius + RadiusStep), [])
    else
      Tick(Motion(c, c, c, 0.0), if m.radius > RadiusThreshold then Markers(m.prev, m.radius, height) else [])
  }

  /**
    One tick of the drawer, for the global pointer sample `pointer`, the tracked
    rectangle `rect` (whose height is the full canvas's height) and the current
    preference flags.
   */
  function Step(m: Motion, pointer: Point, rect: Rect, prefs: Prefs): (t: Tick)
    // The new sample becomes both the current and the previous point.
    ensures t.motion.curr == Local(pointer, rect) && t.motion.prev == t.motion.curr
    // Lines: the tick starts with the strokes for the move, and draws no other line.
    ensures |Strokes(m.prev, Local(pointer, rect))| <= |t.events|
    ensures t.events[..|Strokes(m.prev, Local(pointer, rect))|] == Strokes(m.prev, Local(pointer, rect))
    ensures LinesOf(t.events) == Strokes(m.prev, Local(pointer, rect))
    // Ignoring stops: anchor and radius untouched.
    ensures prefs.ignoreMouseStops ==> t.motion.anchor == m.anchor && t.motion.radius == m.radius
    // Dwelling: the radius grows by one step, the anchor stays.
    ensures !prefs.ignoreMouseStops && InZone(Local(pointer, rect), m.anchor) ==>
      t.motion.anchor == m.anchor && t.motion.radius == m.radius + RadiusStep
    // Leaving the zone (a squared distance of exactly 400 counts): re-anchor at the new sample.
    ensures !prefs.ignoreMouseStops && !InZone(Local(pointer, rect), m.anchor) ==>
      t.motion.anchor == Local(pointer, rect) && t.motion.radius == 0.0
    // Invariants.
    ensures m.radius >= 0.0 ==> t.motion.radius >= 0.0
    ensures !prefs.ignoreMouseStops && m.radius >= 0.0 ==> Settled(t.motion)
  {
    var c := Local(pointer, rect);
    var lines := Strokes(m.prev, c);
    var tracked := if prefs.ignoreMouseStops then Tick(m.(prev := c, curr := c), []) else Track(m, c, rect.height);
    var events := lines + tracked.events;
    LinesOfOnlyLines(lines);
    LinesOfNoLines(tracked.events);
    LinesOfConcat(lines, tracked.events);
    assert events[..|lines|] == lines;
    Tick(tracked.motion, events)
  }

  /**
    The markers of a tick: drawn exactly when a dwell longer than the
    threshold is left (so never while stops are ignored), at the old previous
    point, with the radius clamped to the cap of the full canvas's height.
   */
  lemma StepMarkers(m: Motion, pointer: Point, rect: Rect, prefs: Prefs)
    ensures var events := Step(m, pointer, rect, prefs).events;
      HasMarker(events) <==>
        !prefs.ignoreMouseStops && !InZone(Local(pointer, rect), m.anchor) && m.radius > RadiusThreshold
    ensures forall e <- Step(m, pointer, rect, prefs).events :: e.Marker? ==>
      && e.at == m.prev
      && e.radius <= RadiusCap(rect.height)
      && e.radius <= m.radius
      && (e.radius == m.radius || e.radius == RadiusCap(rect.height))
  {
    var events := Step(m, pointer, rect, prefs).events;
    var tracked := StepSplits(m, pointer, rect, prefs);
    assert forall e <- events :: e in Strokes(m.prev, Local(pointer, rect)) || e in tracked;
    if tracked != [] {
      assert tracked[0] in events;
    }
  }

  /**
    The markers of a tick come as one pair at the end, preview first: a tick
    is its lines followed by two markers or by nothing.
   */
  lemma StepMarkerPair(m: Motion, pointer: Point, rect: Rect, prefs: Prefs)
    ensures var events := Step(m, pointer, rect, prefs).events;
      HasMarker(events) ==>
        && |events| >= 2
        && events[|events| - 2].Marker? && events[|events| - 2].surface == Preview
        && events[|events| - 1].Marker? && events[|events| - 1].surface == Full
    ensures var events := Step(m, pointer, rect, prefs).events;
      |events| == |Strokes(m.prev, Local(pointer, rect))| + (if HasMarker(events) then 2 else 0)
  {
    var events := Step(m, pointer, rect, prefs).events;
    var tracked := StepSplits(m, pointer, rect, prefs);
    var lines := Strokes(m.prev, Local(pointer, rect));
    assert forall e <- events :: e in lines || e in tracked;
    if tracked != [] {
      assert tracked[0] in events;
      assert events[|events| - 2] == tracked[0] && events[|events| - 1] == tracked[1];
    }
  }

  /** A tick's draws are its strokes followed by the draws of the dwell bookkeeping, if tracked. */
  lemma StepSplits(m: Motion, pointer: Point, rect: Rect, prefs: Prefs) returns (tracked: seq<Event>)
    ensures tracked == (if prefs.ignoreMouseStops then [] else Track(m, Local(pointer, rect), rect.height).events)
    ensures Step(m, pointer, rect, prefs).events == Strokes(m.prev, Local(pointer, rect)) + tracked
  {
    tracked := if prefs.ignoreMouseStops then [] else Track(m, Local(pointer, rect), rect.height).events;
  }

  /**
    The edge of the dwell zone: a sample at squared distance 392 from the
    anchor is inside, one at exactly 400 is outside.
   */
  lemma ZoneBoundary(a: Point)
    ensures SqDist(Point(a.x + 14, a.y + 14), a) == 392 && InZone(Point(a.x + 14, a.y + 14), a)
    ensures SqDist(Point(a.x + 20, a.y), a) == 400 && !InZone(Point(a.x + 20, a.y), a)
  {
  }

  /** A sample exactly 20 away from a resting anchor (squared distance 400) leaves the zone. */
  lemma ExitAtExactly400(a: Point, r: real, pointer: Point, rect: Rect, prefs: Prefs)
    requires !prefs.ignoreMouseStops
    requires Local(pointer, rect) == Point(a.x + 20, a.y)
    ensures var c := Local(pointer, rect);
            Step(Motion(a, a, a, r), pointer, rect, prefs).motion == Motion(c, c, c, 0.0)
  {
    ZoneBoundary(a);
  }

  /** A sample at squared distance 392 from a resting anchor stays in the dwell. */
  lemma StayAt392(a: Point, r: real, pointer: Point, rect: Rect, prefs: Prefs)
    requires !prefs.ignoreMouseStops
    requires Local(pointer, rect) == Point(a.x + 14, a.y + 14)
    ensures var c := Local(pointer, rect);
            Step(Motion(a, a, a, r), pointer, rect, prefs).motion == Motion(c, c, a, r + RadiusStep)
  {
    ZoneBoundary(a);
  }

  /** A tick draws a line exactly when the sample differs from the previous one. */
  lemma LineIffMoved(m: Motion, pointer: Point, rect: Rect, prefs: Prefs)
    ensures HasLine(Step(m, pointer, rect, prefs).events) <==> m.prev != Local(pointer, rect)
  {
    var events := Step(m, pointer, rect, prefs).events;
    var lines := Strokes(m.prev, Local(pointer, rect));
    if lines != [] {
      assert events[0] == lines[0];
    }
  }

  /**
    While dwell tracking is on, every marker lands inside the dwell zone of the
    anchor it finishes: it is drawn where the pointer last was before leaving.
   */
  lemma MarkerInsideDwellZone(m: Motion, pointer: Point, rect: Rect, prefs: Prefs)
    requires Settled(m)
    ensures forall e <- Step(m, pointer, rect, prefs).events :: e.Marker? ==> InZone(e.at, m.anchor)
  {
    StepMarkers(m, pointer, rect, prefs);
  }
}

=== FILE: geometry.dfy ===
/**
  Pointer positions and the tracked rectangle. The host reports integer pointer
  positions and the rectangle has an integer origin, so every local coordinate
  the drawer stores is an integer, even though the drawer keeps them in floats.
 */
module Geometry {

  /** A position, either global (screen) or local to the tracked rectangle. */
  datatype Point = Point(x: int, y: int)

  /** The tracked rectangle: origin and size, as the host supplies it. */
  datatype Rect = Rect(x: int, y: int, width: int, height: int)

  /** The local position of a global pointer sample: the sample minus the rectangle's origin. */
  function Local(pointer: Point, rect: Rect): (p: Point)
    ensures p.x + rect.x == pointer.x && p.y + rect.y == pointer.y
  {
    Point(pointer.x - rect.x, pointer.y - rect.y)
  }

  /** The squared Euclidean distance between two points. */
  function SqDist(p: Point, q: Point): (d: int)
    ensures d >= 0
    ensures d == 0 <==> p == q
  {
    var dx := p.x - q.x;
    var dy := p.y - q.y;
    SquaresVanish(dx, dy);
    dx * dx + dy * dy
  }

  /** A sum of two squares is zero exactly when both terms are zero. */
  lemma SquaresVanish(a: int, b: int)
    ensures a * a >= 0 && b * b >= 0
    ensures a * a + b * b == 0 <==> a == 0 && b == 0
  {
    if a != 0 {
      assert a * a > 0 by { if a > 0 { } else { assert a * a == (-a) * (-a); } }
    }
    if b != 0 {
      assert b * b > 0 by { if b > 0 { } else { assert b * b == (-b) * (-b); } }
    }
  }
}

=== FILE: images.dfy ===
/**
  The two canvases the drawer renders into: the full-resolution image and the
  preview. Setting them up reuses a buffer whose size already matches the
  tracked rectangle and allocates a fresh one otherwise; both end up the size
  of the rectangle (the preview is drawn at a smaller scale, not into a
  smaller buffer). Resetting fills both with the background: fully
  transparent, or translucent black in colour-scheme mode.

  Pixel contents are not modelled; a canvas is its buffer's size, how the
  buffer was obtained, its stroke width and its background.
 */
module Images {
  import opened Wrappers
  import opened Geometry

  /** Alpha of the background fill in colour-scheme mode. */
  const DarkBackgroundAlpha: int := 210

  /** An ARGB raster buffer of a given size. */
  datatype Buffer = Buffer(width: int, height: int)

  /** How a setup obtained a canvas's buffer. */
  datatype Provision =
    | Reused       // the existing buffer already had the requested size
    | Reallocated  // the existing buffer was released and a new one allocated
    | Allocated    // there was no buffer yet

  /** A canvas: its buffer, how it was obtained, its stroke width and its background alpha (on black). */
  datatype Canvas = Canvas(buffer: Buffer, provision: Provision, strokeWidth: real, backgroundAlpha: int)

  datatype Canvases = Canvases(full: Canvas, preview: Canvas)

  /** Allocating an image of a non-positive size is refused. */
  datatype SetupError = InvalidSize(width: int, height: int)

  /** Whether a buffer of this size can be allocated. */
  predicate Allocatable(width: int, height: int) {
    width > 0 && height > 0
  }

  /** Whether an optional existing buffer is one that could have been allocated. */
  predicate ValidExisting(existing: Option<Buffer>) {
    existing.Some? ==> Allocatable(existing.value.width, existing.value.height)
  }

  /** Allocates a fresh buffer, failing for a non-positive size. */
  function Allocate(width: int, height: int): (r: Result<Buffer, SetupError>)
    ensures r.Success? <==> Allocatable(width, height)
    ensures r.Success? ==> r.value == Buffer(width, height)
  {
    if Allocatable(width, height) then Success(Buffer(width, height))
    else Failure(InvalidSize(width, height))
  }

  /**
    Obtains a buffer of the requested size: the existing one when its size
    matches in both dimensions, a fresh allocation otherwise.
   */
  function Provide(existing: Option<Buffer>, width: int, height: int): (r: Result<(Buffer, Provision), SetupError>)
    requires ValidExisting(existing)
    ensures r.Success? <==> Allocatable(width, height)
    ensures r.Success? ==> r.value.0 == Buffer(width, height)
    ensures r.Success? ==> (r.value.1 == Reused <==> existing == Some(Buffer(width, height)))
    ensures r.Success? ==> (r.value.1 == Allocated <==> existing.None?)
  {
    if existing.Some? && existing.value.width == width && existing.value.height == height then
      Success((existing.value, Reused))
    else
      match Allocate(width, height)
      case Failure(e) => Failure(e)
      case Success(b) => Success((b, if existing.Some? then Reallocated else Allocated))
  }

  /**
    The background alpha both canvases are cleared to: fully transparent in
    monochrome mode, translucent (neither clear nor opaque) black in
    colour-scheme mode.
   */
  function BackgroundAlpha(useColorScheme: bool): (alpha: int)
    ensures 0 <= alpha <= 255
    ensures alpha == 0 <==> !useColorScheme
    ensures useColorScheme ==> 0 < alpha < 255
  {
    if useColorScheme then DarkBackgroundAlpha else 0
  }

  /** Clears both canvases to the background of the current colour mode. */
  function ResetImages(c: Canvases, useColorScheme: bool): (r: Canvases)
    ensures r.full.backgroundAlpha == r.preview.backgroundAlpha == BackgroundAlpha(useColorScheme)
    ensures r.full.buffer == c.full.buffer && r.preview.buffer == c.preview.buffer
    ensures r.full.strokeWidth == c.full.strokeWidth && r.preview.strokeWidth == c.preview.strokeWidth
    ensures r.full.provision == c.full.provision && r.preview.provision == c.preview.provision
  {
    var alpha := BackgroundAlpha(useColorScheme);
    Canvases(c.full.(backgroundAlpha := alpha), c.preview.(backgroundAlpha := alpha))
  }

  /**
    Sets up both canvases for the rectangle `r` and preview scale `s`, with the
    base stroke weight `strokeWeight`, then clears them. Fails when the
    rectangle has a non-positive size and a buffer has to be allocated.
   */
  function SetupImages(full: Option<Buffer>, preview: Option<Buffer>, r: Rect, s: real, strokeWeight: real, useColorScheme: bool)
    : (result: Result<Canvases, SetupError>)
    requires ValidExisting(full) && ValidExisting(preview)
    ensures result.Success? <==> Allocatable(r.width, r.height)
    ensures result.Success? ==>
      && result.value.full.buffer == Buffer(r.width, r.height)
      && result.value.preview.buffer == Buffer(r.width, r.height)
    ensures result.Success? ==>
      && (result.value.full.provision == Reused <==> full == Some(Buffer(r.width, r.height)))
      && (result.value.preview.provision == Reused <==> preview == Some(Buffer(r.width, r.height)))
    ensures result.Success? ==>
      && result.value.full.strokeWidth == strokeWeight
      && result.value.preview.strokeWidth == strokeWeight * s
    ensures result.Success? ==>
      && result.value.full.backgroundAlpha == BackgroundAlpha(useColorScheme)
      && result.value.preview.backgroundAlpha == BackgroundAlpha(useColorScheme)
  {
    match Provide(full, r.width, r.height)
    case Failure(e) => Failure(e)
    case Success((fullBuffer, fullHow)) =>
      match Provide(preview, r.width, r.height)
      case Failure(e) => Failure(e)
      case Success((previewBuffer, previewHow)) =>
        var canvases := Canvases(
          Canvas(fullBuffer, fullHow, strokeWeight, 0),
          Canvas(previewBuffer, previewHow, strokeWeight * s, 0));
        Success(ResetImages(canvases, useColorScheme))
  }

  /**
    Setting up again for the same rectangle reallocates nothing: both buffers
    from the first setup are reused.
   */
  lemma SetupAgainReuses(full: Option<Buffer>, preview: Option<Buffer>, r: Rect, s: real, strokeWeight: real, useColorScheme: bool)
    requires ValidExisting(full) && ValidExisting(preview)
    requires SetupImages(full, preview, r, s, strokeWeight, useColorScheme).Success?
    ensures var first := SetupImages(full, preview, r, s, strokeWeight, useColorScheme).value;
            var again := SetupImages(Some(first.full.buffer), Some(first.preview.buffer), r, s, strokeWeight, useColorScheme);
            && again.Success?
            && again.value.full.provision == Reused
            && again.value.preview.provision == Reused
            && again.value.full.buffer == first.full.buffer
            && again.value.preview.buffer == first.preview.buffer
  {
  }

  /** Resetting twice is resetting once. */
  lemma ResetIdempotent(c: Canvases, useColorScheme: bool)
    ensures ResetImages(ResetImages(c, useColorScheme), useColorScheme) == ResetImages(c, useColorScheme)
  {
  }
}

=== FILE: palette.dfy ===
/**
  The foreground colour of strokes and markers. In monochrome mode everything
  is black. In colour-scheme mode the colour follows the direction of motion:
  the direction is normalised to `n` in [0, 1), and `n` walks a cycle of three
  control colours (yellow, cyan, magenta), blending linearly between
  neighbours with every channel truncated to an integer.

  `getColor`'s float arithmetic is modelled on exact reals, with its
  float-to-int casts and float remainder written out.
 */
module Palette {

  /** An opaque colour with integer channels. */
  datatype Rgb = Rgb(red: int, green: int, blue: int)

  const Black: Rgb := Rgb(0, 0, 0)
  const Yellow: Rgb := Rgb(255, 255, 0)
  const Cyan: Rgb := Rgb(0, 255, 255)
  const Magenta: Rgb := Rgb(255, 0, 255)

  /** The control colours, in the order the direction value walks them. */
  const Controls: seq<Rgb> := [Yellow, Cyan, Magenta]

  /** Whether every channel lies in the displayable range 0..255. */
  predicate InGamut(c: Rgb) {
    && 0 <= c.red <= 255
    && 0 <= c.green <= 255
    && 0 <= c.blue <= 255
  }

  /** Whether `v` lies between `a` and `b`, in either order. */
  predicate Between(v: int, a: int, b: int) {
    (a <= v <= b) || (b <= v <= a)
  }

  /** Whether every channel of `c` lies between the matching channels of `c0` and `c1`. */
  predicate BetweenColors(c: Rgb, c0: Rgb, c1: Rgb) {
    && Between(c.red, c0.red, c1.red)
    && Between(c.green, c0.green, c1.green)
    && Between(c.blue, c0.blue, c1.blue)
  }

  /** A float-to-int cast: rounds toward zero. */
  function Truncate(x: real): (i: int)
    ensures x >= 0.0 ==> 0 <= i && i as real <= x < i as real + 1.0
    ensures x < 0.0 ==> i <= 0 && i as real - 1.0 < x <= i as real
  {
    if x >= 0.0 then x.Floor else -((-x).Floor)
  }

  /** The number of control colours. */
  function Count(): real {
    |Controls| as real
  }

  /**
    The float remainder `x % 3`, taken by the number of control colours: the
    result keeps the sign of the dividend.
   */
  function CycleRem(x: real): (z: real)
    ensures ((x - z) / Count()).Floor as real == (x - z) / Count()
    ensures x >= 0.0 ==> 0.0 <= z < Count()
    ensures x < 0.0 ==> -Count() < z <= 0.0
  {
    var q := Truncate(x / Count());
    x - q as real * Count()
  }

  /** The index of the control colour a blend starts from: the integer part of 3n. */
  function LowerIndex(n: real): (k: int)
    requires 0.0 <= n < 1.0
    ensures 0 <= k < |Controls|
    ensures k as real <= Count() * n < k as real + 1.0
  {
    Truncate(Count() * n)
  }

  /**
    The index of the control colour a blend heads toward, computed as
    `getColor` computes it: the integer part of the float remainder (3n + 1) % 3. It is
    always the control after the starting one, cyclically.
   */
  function UpperIndex(n: real): (k: int)
    requires 0.0 <= n < 1.0
    ensures k == (LowerIndex(n) + 1) % |Controls|
  {
    var z := CycleRem(Count() * n + 1.0);
    WrapToNext(n);
    Truncate(z)
  }

  /** The remainder (3n + 1) % 3 is 3n + 1 before the last third and 3n - 2 in it. */
  lemma WrapToNext(n: real)
    requires 0.0 <= n < 1.0
    ensures var z := CycleRem(Count() * n + 1.0);
            Truncate(z) == (LowerIndex(n) + 1) % |Controls|
  {
    var x := Count() * n + 1.0;
    var z := CycleRem(x);
    assert z == x - (Truncate(x / Count()) as real) * Count();
    if LowerIndex(n) < 2 {
      assert x / Count() < 1.0;
      assert z == x;
    } else {
      assert 1.0 <= x / Count() < 2.0;
      assert z == x - Count();
    }
  }

  /** The position of `n` between the two control colours, in [0, 1). */
  function Fraction(n: real): (f: real)
    requires 0.0 <= n < 1.0
    ensures 0.0 <= f < 1.0
    ensures Count() * n == LowerIndex(n) as real + f
  {
    Count() * n - LowerIndex(n) as real
  }

  /** The exact linear interpolation from `a` to `b` at fraction `f`, before any cast. */
  function Mix(a: int, b: int, f: real): real {
    a as real + (b - a) as real * f
  }

  /**
    One channel of the blend: the cast to int of a + (b - a) * f. It is the
    integer part of the exact interpolation, lies between the two channels,
    starts exactly at `a` and ends exactly at `b`.
   */
  function Lerp(a: int, b: int, f: real): (v: int)
    requires 0.0 <= f <= 1.0
    requires 0 <= a && 0 <= b
    ensures v as real <= Mix(a, b, f) < v as real + 1.0
    ensures Between(v, a, b)
    ensures f == 0.0 ==> v == a
    ensures f == 1.0 ==> v == b
  {
    var x := Mix(a, b, f);
    ScaledBetween(a, b, f);
    Truncate(x)
  }

  lemma ScaledBetween(a: int, b: int, f: real)
    requires 0.0 <= f <= 1.0
    ensures a <= b ==> a as real <= a as real + (b - a) as real * f <= b as real
    ensures b <= a ==> b as real <= a as real + (b - a) as real * f <= a as real
  {
    var d := (b - a) as real;
    if d >= 0.0 {
      assert 0.0 <= d * f <= d * 1.0;
    } else {
      assert d * 1.0 <= d * f <= 0.0;
    }
  }

  /** Whether every channel of `c` is the integer part of the interpolation from `c0` to `c1` at `f`. */
  predicate Blended(c: Rgb, c0: Rgb, c1: Rgb, f: real) {
    && c.red as real <= Mix(c0.red, c1.red, f) < c.red as real + 1.0
    && c.green as real <= Mix(c0.green, c1.green, f) < c.green as real + 1.0
    && c.blue as real <= Mix(c0.blue, c1.blue, f) < c.blue as real + 1.0
  }

  /** The channel-wise blend of two colours. */
  function Blend(c0: Rgb, c1: Rgb, f: real): (c: Rgb)
    requires 0.0 <= f <= 1.0
    requires InGamut(c0) && InGamut(c1)
    ensures Blended(c, c0, c1, f)
    ensures InGamut(c)
    ensures BetweenColors(c, c0, c1)
    ensures f == 0.0 ==> c == c0
  {
    Rgb(Lerp(c0.red, c1.red, f), Lerp(c0.green, c1.green, f), Lerp(c0.blue, c1.blue, f))
  }

  /**
    The colour for a normalised direction `n`: a blend from the control colour
    at the integer part of 3n toward the next one, by the fractional part.
   */
  function DirectionColor(n: real): (c: Rgb)
    requires 0.0 <= n < 1.0
    ensures Blended(c, Controls[LowerIndex(n)], Controls[(LowerIndex(n) + 1) % |Controls|], Fraction(n))
    ensures InGamut(c)
    ensures BetweenColors(c, Controls[LowerIndex(n)], Controls[(LowerIndex(n) + 1) % |Controls|])
    ensures Fraction(n) == 0.0 ==> c == Controls[LowerIndex(n)]
    ensures c.red == 255 || c.green == 255 || c.blue == 255
  {
    var c0 := Controls[LowerIndex(n)];
    var c1 := Controls[UpperIndex(n)];
    Blend(c0, c1, Fraction(n))
  }

  /**
    The foreground colour: black in monochrome mode; in colour-scheme mode the
    colour of the direction value `n`, which the caller has normalised to [0, 1).
   */
  function Foreground(useColorScheme: bool, n: real): (c: Rgb)
    requires useColorScheme ==> 0.0 <= n < 1.0
    ensures InGamut(c)
    ensures !useColorScheme ==> c == Black
    ensures useColorScheme ==> c.red == 255 || c.green == 255 || c.blue == 255
    ensures useColorScheme ==>
      Blended(c, Controls[LowerIndex(n)], Controls[(LowerIndex(n) + 1) % |Controls|], Fraction(n))
  {
    if useColorScheme then DirectionColor(n) else Black
  }

  /** At a third of the cycle the colour is exactly the control colour there. */
  lemma ControlPointsExact(k: int)
    requires 0 <= k < |Controls|
    ensures DirectionColor(k as real / Count()) == Controls[k]
  {
    var n := k as real / Count();
    assert Count() * n == k as real;
    assert LowerIndex(n) == k;
  }

  /**
    Within one third of the cycle, moving `n` forward moves every channel
    monotonically from the starting control colour toward the next one.
   */
  lemma BlendMonotone(n1: real, n2: real)
    requires 0.0 <= n1 <= n2 < 1.0
    requires LowerIndex(n1) == LowerIndex(n2)
    ensures var c0 := Controls[LowerIndex(n1)];
            var c1 := Controls[(LowerIndex(n1) + 1) % |Controls|];
            && Between(DirectionColor(n1).red, c0.red, DirectionColor(n2).red)
            && Between(DirectionColor(n1).green, c0.green, DirectionColor(n2).green)
            && Between(DirectionColor(n1).blue, c0.blue, DirectionColor(n2).blue)
  {
    var k := LowerIndex(n1);
    var c0 := Controls[k];
    var c1 := Controls[(k + 1) % |Controls|];
    var f1, f2 := Fraction(n1), Fraction(n2);
    assert f1 <= f2;
    assert UpperIndex(n1) == (k + 1) % |Controls| && UpperIndex(n2) == (k + 1) % |Controls|;
    assert DirectionColor(n1) == Blend(c0, c1, f1);
    assert DirectionColor(n2) == Blend(c0, c1, f2);
    LerpMonotone(c0.red, c1.red, f1, f2);
    LerpMonotone(c0.green, c1.green, f1, f2);
    LerpMonotone(c0.blue, c1.blue, f1, f2);
  }

  /**
    A channel of the control colours (each is 0 or 255) blended further moves
    further from its start.
   */
  lemma LerpMonotone(a: int, b: int, f1: real, f2: real)
    requires 0.0 <= f1 <= f2 <= 1.0
    requires a == 0 || a == 255
    requires b == 0 || b == 255
    ensures Between(Lerp(a, b, f1), a, Lerp(a, b, f2))
  {
    if a == b {
      assert Lerp(a, b, f1) == a;
    } else if a == 0 {
      assert Lerp(a, b, f1) == Truncate(255.0 * f1);
      assert Lerp(a, b, f2) == Truncate(255.0 * f2);
      TruncateMonotone(255.0 * f1, 255.0 * f2);
    } else {
      assert Lerp(a, b, f1) == Truncate(255.0 - 255.0 * f1);
      assert Lerp(a, b, f2) == Truncate(255.0 - 255.0 * f2);
      TruncateMonotone(255.0 - 255.0 * f2, 255.0 - 255.0 * f1);
    }
  }

  /** The cast to int is monotone on non-negative values. */
  lemma TruncateMonotone(x1: real, x2: real)
    requires 0.0 <= x1 <= x2
    ensures Truncate(x1) <= Truncate(x2)
  {
  }
}

=== FILE: trace.dfy ===
/**
  Sessions of many ticks. The host drives the drawer by calling `update` once
  per sample; `Run` folds `Step` over a sequence of pointer samples with fixed
  preference flags and collects every draw in order. The lemmas here relate a
  whole session to the per-tick rules: dwell accumulation over many ticks, the
  marker threshold in ticks, and the line draws a session produces.
 */
module Trace {
  import opened Geometry
  import opened Drawer

  /** The state and draws after feeding the given pointer samples to the drawer in order. */
  function Run(m: Motion, pointers: seq<Point>, rect: Rect, prefs: Prefs): (t: Tick)
    ensures |pointers| > 0 ==>
      t.motion.curr == Local(pointers[|pointers| - 1], rect) && t.motion.prev == t.motion.curr
    ensures m.radius >= 0.0 ==> t.motion.radius >= 0.0
    ensures !prefs.ignoreMouseStops && m.radius >= 0.0 && |pointers| > 0 ==> Settled(t.motion)
    ensures prefs.ignoreMouseStops ==>
      !HasMarker(t.events) && t.motion.anchor == m.anchor && t.motion.radius == m.radius
    ensures forall e <- t.events :: e.Marker? ==> e.radius <= RadiusCap(rect.height)
    decreases |pointers|
  {
    if |pointers| == 0 then
      Tick(m, [])
    else
      var before := Run(m, pointers[..|pointers| - 1], rect, prefs);
      var last := Step(before.motion, pointers[|pointers| - 1], rect, prefs);
      StepMarkers(before.motion, pointers[|pointers| - 1], rect, prefs);
      assert forall e <- before.events + last.events :: e in before.events || e in last.events;
      Tick(last.motion, before.events + last.events)
  }

  /**
    With dwell tracking on, while every sample stays inside the anchor's zone
    the anchor never moves, the radius grows by exactly one step per tick and
    no marker is drawn.
   */
  lemma {:induction false} DwellAccumulates(m: Motion, pointers: seq<Point>, rect: Rect, prefs: Prefs)
    requires !prefs.ignoreMouseStops
    requires forall p <- pointers :: InZone(Local(p, rect), m.anchor)
    ensures Run(m, pointers, rect, prefs).motion.anchor == m.anchor
    ensures Run(m, pointers, rect, prefs).motion.radius == m.radius + RadiusStep * |pointers| as real
    ensures !HasMarker(Run(m, pointers, rect, prefs).events)
    decreases |pointers|
  {
    if |pointers| > 0 {
      var init := pointers[..|pointers| - 1];
      assert forall p <- init :: p in pointers;
      assert pointers[|pointers| - 1] in pointers;
      DwellAccumulates(m, init, rect, prefs);
      var before := Run(m, init, rect, prefs);
      var last := Step(before.motion, pointers[|pointers| - 1], rect, prefs);
      StepMarkers(before.motion, pointers[|pointers| - 1], rect, prefs);
      assert forall e <- before.events + last.events :: e in before.events || e in last.events;
    }
  }

  /** The local positions of a sequence of pointer samples. */
  function Locals(pointers: seq<Point>, rect: Rect): (ps: seq<Point>)
    ensures |ps| == |pointers|
    ensures forall i | 0 <= i < |pointers| :: ps[i] == Local(pointers[i], rect)
  {
    if pointers == [] then [] else [Local(pointers[0], rect)] + Locals(pointers[1..], rect)
  }

  /**
    The polyline a sequence of local samples traces from `start`: for every
    sample that differs from the one before it, a segment from the one before
    to it, drawn on the preview and then on the full canvas.
   */
  function Polyline(start: Point, samples: seq<Point>): (lines: seq<Event>)
    ensures |lines| % 2 == 0
    ensures forall e <- lines :: e.Line? && e.from != e.to
    decreases |samples|
  {
    if samples == [] then []
    else
      var init := samples[..|samples| - 1];
      var from := if init == [] then start else init[|init| - 1];
      var to := samples[|samples| - 1];
      var segment := if from == to then [] else [Line(Preview, from, to), Line(Full, from, to)];
      var before := Polyline(start, init);
      assert forall e <- before + segment :: e in before || e in segment;
      before + segment
  }

  /**
    The line draws of a session are exactly the polyline through its samples,
    whatever the flags and whatever dwells or markers happen in between.
   */
  lemma {:induction false} RunDrawsPolyline(m: Motion, pointers: seq<Point>, rect: Rect, prefs: Prefs)
    ensures LinesOf(Run(m, pointers, rect, prefs).events) == Polyline(m.prev, Locals(pointers, rect))
    decreases |pointers|
  {
    if |pointers| > 0 {
      var init := pointers[..|pointers| - 1];
      var before := Run(m, init, rect, prefs);
      var last := Step(before.motion, pointers[|pointers| - 1], rect, prefs);
      RunDrawsPolyline(m, init, rect, prefs);
      LinesOfConcat(before.events, last.events);
      assert Locals(pointers, rect)[..|pointers| - 1] == Locals(init, rect);
    }
  }

  /** `n` copies of one sample: the pointer resting in place for `n` ticks. */
  function Repeat(p: Point, n: nat): (ps: seq<Point>)
    ensures |ps| == n
    ensures forall q <- ps :: q == p
  {
    if n == 0 then [] else [p] + Repeat(p, n - 1)
  }

  /** A pointer resting where it started traces no segment. */
  lemma {:induction false} PolylineAtRest(p: Point, samples: seq<Point>)
    requires forall q <- samples :: q == p
    ensures Polyline(p, samples) == []
    decreases |samples|
  {
    if samples != [] {
      var init := samples[..|samples| - 1];
      assert forall q <- init :: q in samples;
      assert samples[|samples| - 1] in samples;
      assert init != [] ==> init[|init| - 1] in samples;
      PolylineAtRest(p, init);
    }
  }

  /**
    A session that starts at `p`, rests there for `n` ticks and then jumps to a
    sample outside the dwell zone: one segment is drawn for the jump, and a
    marker pair at the resting point exactly when n steps of 0.3 exceed 20,
    its radius the accumulated one clamped to the canvas height's cap.
    The session ends re-anchored at the jump's target with no dwell.
   */
  lemma DwellThenLeave(p: Point, q: Point, n: nat, rect: Rect, prefs: Prefs)
    requires !prefs.ignoreMouseStops
    requires !InZone(Local(q, rect), Local(p, rect))
    ensures var t := Run(PrepareForUpdate(p, rect), Repeat(p, n) + [q], rect, prefs);
            var r := MinReal(RadiusStep * n as real, RadiusCap(rect.height));
            && (HasMarker(t.events) <==> RadiusStep * n as real > RadiusThreshold)
            && (forall e <- t.events :: e.Marker? ==> e.at == Local(p, rect) && e.radius == r)
            && (HasMarker(t.events) ==>
                  && Marker(Preview, Local(p, rect), r) in t.events
                  && Marker(Full, Local(p, rect), r) in t.events)
            && LinesOf(t.events) == [Line(Preview, Local(p, rect), Local(q, rect)), Line(Full, Local(p, rect), Local(q, rect))]
            && t.motion.anchor == Local(q, rect)
            && t.motion.radius == 0.0
  {
    var a := Local(p, rect);
    var b := Local(q, rect);
    var r := RadiusStep * n as real;
    RestThenLeave(p, q, n, rect, prefs);
    JumpDraws(a, b, r, MinReal(r, RadiusCap(rect.height)));
  }

  /**
    The whole of a rest-then-leave session: the jump's line pair, then the
    marker pair when the accumulated radius exceeds the threshold, ending
    re-anchored at the jump's target with no dwell.
   */
  lemma RestThenLeave(p: Point, q: Point, n: nat, rect: Rect, prefs: Prefs)
    requires !prefs.ignoreMouseStops
    requires !InZone(Local(q, rect), Local(p, rect))
    ensures var a := Local(p, rect);
            var b := Local(q, rect);
            var r := RadiusStep * n as real;
            var c := MinReal(r, RadiusCap(rect.height));
            Run(PrepareForUpdate(p, rect), Repeat(p, n) + [q], rect, prefs)
              == Tick(Motion(b, b, b, 0.0),
                      [Line(Preview, a, b), Line(Full, a, b)]
                        + (if r > RadiusThreshold then [Marker(Preview, a, c), Marker(Full, a, c)] else []))
  {
    var m := PrepareForUpdate(p, rect);
    var rest := Repeat(p, n);
    RestAccumulates(p, n, rect, prefs);
    RunSnoc(m, rest, q, rect, prefs);
    LeaveAfterRest(Local(p, rect), q, RadiusStep * n as real, rect, prefs);
  }

  /**
    The draws of a jump from `a` to `b` that finishes a dwell of radius `r`
    (clamped to `c`): its lines are the segment pair, and its markers are the
    pair at `a` of radius `c`, present exactly when `r` exceeds the threshold.
   */
  lemma JumpDraws(a: Point, b: Point, r: real, c: real)
    ensures var lines := [Line(Preview, a, b), Line(Full, a, b)];
            var events := lines + (if r > RadiusThreshold then [Marker(Preview, a, c), Marker(Full, a, c)] else []);
            && (HasMarker(events) <==> r > RadiusThreshold)
            && (forall e <- events :: e.Marker? ==> e.at == a && e.radius == c)
            && (HasMarker(events) ==> Marker(Preview, a, c) in events && Marker(Full, a, c) in events)
            && LinesOf(events) == lines
  {
    var lines := [Line(Preview, a, b), Line(Full, a, b)];
    var marks := if r > RadiusThreshold then [Marker(Preview, a, c), Marker(Full, a, c)] else [];
    var events := lines + marks;
    assert forall e <- events :: e in lines || e in marks;
    LinesOfOnlyLines(lines);
    LinesOfNoLines(marks);
    LinesOfConcat(lines, marks);
    if r > RadiusThreshold {
      assert events[2] == Marker(Preview, a, c);
      assert events[3] == Marker(Full, a, c);
    }
  }

  /** Running one more sample is one more step from where the run ended. */
  lemma RunSnoc(m: Motion, pointers: seq<Point>, x: Point, rect: Rect, prefs: Prefs)
    ensures var before := Run(m, pointers, rect, prefs);
            var last := Step(before.motion, x, rect, prefs);
            Run(m, pointers + [x], rect, prefs) == Tick(last.motion, before.events + last.events)
  {
    var ps := pointers + [x];
    assert ps[..|ps| - 1] == pointers;
  }

  /**
    Resting at the session's starting sample for `n` ticks draws nothing and
    accumulates n steps of radius around the starting point.
   */
  lemma RestAccumulates(p: Point, n: nat, rect: Rect, prefs: Prefs)
    requires !prefs.ignoreMouseStops
    ensures var t := Run(PrepareForUpdate(p, rect), Repeat(p, n), rect, prefs);
            && t.events == []
            && t.motion == Motion(Local(p, rect), Local(p, rect), Local(p, rect), RadiusStep * n as real)
  {
    var m := PrepareForUpdate(p, rect);
    var rest := Repeat(p, n);
    DwellAccumulates(m, rest, rect, prefs);
    var t := Run(m, rest, rect, prefs);
    assert t.motion.prev == Local(p, rect) by {
      if n > 0 {
        assert rest[n - 1] in rest;
      }
    }
    RunDrawsPolyline(m, rest, rect, prefs);
    PolylineAtRest(Local(p, rect), Locals(rest, rect));
    NoLinesNoMarkers(t.events);
  }

  /** An event sequence with neither line nor marker draws is empty. */
  lemma NoLinesNoMarkers(events: seq<Event>)
    requires LinesOf(events) == []
    requires !HasMarker(events)
    ensures events == []
  {
  }

  /**
    Leaving the dwell zone after resting at `a` with radius `r` draws the
    jump's segment, then a marker pair at `a` exactly when `r` exceeds the
    threshold, and starts a fresh dwell at the new sample.
   */
  lemma LeaveAfterRest(a: Point, q: Point, r: real, rect: Rect, prefs: Prefs)
    requires !prefs.ignoreMouseStops
    requires !InZone(Local(q, rect), a)
    ensures var t := Step(Motion(a, a, a, r), q, rect, prefs);
            var c := MinReal(r, RadiusCap(rect.height));
            && t.motion == Motion(Local(q, rect), Local(q, rect), Local(q, rect), 0.0)
            && t.events == [Line(Preview, a, Local(q, rect)), Line(Full, a, Local(q, rect))]
                 + (if r > RadiusThreshold then [Marker(Preview, a, c), Marker(Full, a, c)] else [])
  {
    var m := Motion(a, a, a, r);
    var c := Local(q, rect);
    assert a != c;
    var lines := Strokes(a, c);
    assert lines == [Line(Preview, a, c), Line(Full, a, c)];
    var marks := if r > RadiusThreshold then Markers(a, r, rect.height) else [];
    var t := Step(m, q, rect, prefs);
    assert t.events == lines + marks;
    assert t.motion == Motion(c, c, c, 0.0);
  }

  /** Sixty ticks at rest accumulate a radius of 18, below the threshold: no marker. */
  lemma SixtyTicksDrawNoMarker(p: Point, q: Point, rect: Rect, prefs: Prefs)
    requires !prefs.ignoreMouseStops
    requires !InZone(Local(q, rect), Local(p, rect))
    ensures !HasMarker(Run(PrepareForUpdate(p, rect), Repeat(p, 60) + [q], rect, prefs).events)
  {
    DwellThenLeave(p, q, 60, rect, prefs);
  }

  /** Seventy ticks at rest accumulate a radius of 21, above the threshold: a marker is drawn. */
  lemma SeventyTicksDrawMarker(p: Point, q: Point, rect: Rect, prefs: Prefs)
    requires !prefs.ignoreMouseStops
    requires !InZone(Local(q, rect), Local(p, rect))
    ensures HasMarker(Run(PrepareForUpdate(p, rect), Repeat(p, 70) + [q], rect, prefs).events)
  {
    DwellThenLeave(p, q, 70, rect, prefs);
  }

  /**
    An 800 by 600 rectangle with dwell tracking on: resting at local (100, 100)
    for 80 ticks and jumping to local (300, 300) draws the jump's segment and a
    marker pair of radius 24 at (100, 100), whose halo is 48 across on the full
    canvas and 12 across on a preview drawn at scale 0.25, and re-anchors at
    (300, 300).
   */
  lemma EightyTicksDrawMarker(p: Point, q: Point, rect: Rect, prefs: Prefs)
    requires !prefs.ignoreMouseStops
    requires rect.height == 600
    requires Local(p, rect) == Point(100, 100) && Local(q, rect) == Point(300, 300)
    ensures var t := Run(PrepareForUpdate(p, rect), Repeat(p, 80) + [q], rect, prefs);
            && LinesOf(t.events) == [Line(Preview, Point(100, 100), Point(300, 300)), Line(Full, Point(100, 100), Point(300, 300))]
            && Marker(Preview, Point(100, 100), 24.0) in t.events
            && Marker(Full, Point(100, 100), 24.0) in t.events
            && (forall e <- t.events :: e.Marker? ==>
                  HaloDiameter(e.radius, ScaleOf(e.surface, 0.25)) == (if e.surface == Full then 48.0 else 12.0))
            && t.motion.anchor == Point(300, 300)
  {
    DwellThenLeave(p, q, 80, rect, prefs);
    assert RadiusCap(rect.height) == 22500.0;
  }
}

=== FILE: wrappers.dfy ===
/** Optional values and results that can fail, used across the model. */
module Wrappers {

  /** An optional value: a buffer that may not have been allocated yet. */
  datatype Option<+T> = None | Some(value: T)

  /** The outcome of an operation that can fail with an error value. */
  datatype Result<+R, +E> = Success(value: R) | Failure(error: E)
}
